=== FILE: README.md ===
# Items front-end: screen state machines and client outcome rules

This project models, in Dafny, the logic of a small browser front-end for
"itens" (records with an `id`, a `nome` and a `descricao`) kept behind a REST API.
It covers three parts:

- **The items client** (`src/services/itens.ts`). Each of its five operations
  (`lerTodos`, `ler`, `atualizar`, `remover`, `criar`) is a request and a rule
  that turns the HTTP outcome into a `sucesso` or `falha` callback. The network
  is abstract: a response is `Resolvida(status, corpo, location)` or `Rejeitada`.
  The `${id}` in item URLs is modelled as a decimal rendering with a proved
  reading back, so each item URL names exactly one item.
- **The detail screen** (`src/pages/item.tsx`). It has the `Estado` enum
  `Lendo … Removido`, the loaded `item`, the draft `novoNome`/`novaDescricao`,
  and the route `id`. Every handler and service callback is a pure function.
  The render conditions decide which handlers can fire.
- **The list screen** (`src/pages/itens.tsx`). It has the `Estado` enum
  `Lendo … Criado`, the held list and the draft `nome`/`descricao`.

Each screen is modelled at two levels. The first level is its handlers, each a
function from the screen to a new screen, plus the service call it starts. The
second level is a `Sessao`: the screen plus its outstanding call. In a
`Sessao`, a user event happens only when the render conditions show its
control. A response event happens only when a call is outstanding, and runs
that call's callback through the client's classification. `Executar` runs any
sequence of events, through the screen-independent `Trajetoria` module. Events that cannot happen leave the session as it is. Each
screen has an invariant, `Coerente`. It holds at mount and is proved to hold
after every sequence of events. The trace properties follow from it:

- Editar always finds an item.
- While a call is outstanding, no user event changes the session, so no call
  is ever replaced by another before its response arrives.
- Some states are dead ends or terminal.
- Once loaded, the list only grows at its end.

Files: `resultados.dfy` (Option, Desfecho), `modelo.dfy` (Item, Rascunho),
`decimal.dfy`, `itens_service.dfy`, `trajetoria.dfy` (event traces and the
invariant a step keeps), `item_page.dfy`, `itens_page.dfy`.

## Model

| member | source | states |
|---|---|---|
| Decimal.Natural | src/services/itens.ts:13 | the `${id}` rendering of a natural (below 10^21, where JavaScript writes plain digits) is a non-empty string of decimal digits with no leading zero unless the number is 0 |
| Decimal.Inteiro | src/services/itens.ts:13 | the `${id}` rendering of an integer starts with a minus sign exactly when it is negative, followed by decimal digits only, with no leading zero unless the number is 0 |
| Decimal.LerNaturalDeNatural | src/services/itens.ts:13 | reading back a rendered natural gives the same number |
| Decimal.LerInteiroDeInteiro | src/services/itens.ts:13 | reading back a rendered integer, sign included, gives the same number |
| Decimal.InteiroInjetivo | src/services/itens.ts:13 | two integers with the same rendering are equal |
| ItensService.PedidoDe | src/services/itens.ts:6-31 | list and read are GETs, update a PUT, delete a DELETE and create a POST; list and create go to the collection; read, update and delete go to a URL that names exactly the id involved; PUT carries the item, POST carries the draft, the others carry no body |
| ItensService.UrlDoItem | src/services/itens.ts:12-25 | an item URL lies under the collection, and the id it was built from can be read back from it |
| ItensService.UrlDoItemInjetiva | src/services/itens.ts:18-19 | distinct ids are addressed at distinct URLs |
| ItensService.DesfechoDeLerTodos | src/services/itens.ts:6-10 | success exactly when the GET resolves, whatever its status, and the payload is the body; a rejection is failure |
| ItensService.DesfechoDeLer | src/services/itens.ts:12-16 | success if and only if the GET resolves with 200, delivering the body |
| ItensService.DesfechoDeAtualizar | src/services/itens.ts:18-22 | success if and only if the PUT resolves with 204 |
| ItensService.DesfechoDeRemover | src/services/itens.ts:24-28 | success if and only if the DELETE resolves with 204 |
| ItensService.PedidoDeSeguimento | src/services/itens.ts:31-35 | a follow-up GET is issued if and only if the POST resolves with 201; it targets the API prefix followed by the Location header |
| ItensService.DesfechoDeCriar | src/services/itens.ts:30-43 | success if and only if the POST gives 201 and the follow-up GET gives 200, delivering the fetched body; without a follow-up the result is failure |
| ItensService.SeguimentoLeOItemCriado | src/services/itens.ts:33-35 | a Location of the form `/itens/<id>` makes the follow-up exactly the read request of that id |
| ItensService.ClassificacaoSegueTabela | src/services/itens.ts:6-42 | every operation succeeds exactly when its last response resolves with the status that operation tests for, and never on a rejection |
| ItemPage.Montar | src/pages/item.tsx:22-38 | the screen starts in Lendo with no item and an empty draft; the item is requested, under the route id, if and only if there is one |
| ItemPage.AoLer | src/pages/item.tsx:29-36 | read success holds the returned item and moves to Lido; failure moves to ErroLer; the draft and the id do not change |
| ItemPage.ClicarEditar | src/pages/item.tsx:40-44 | Editar copies the held item's name and description into the draft and moves to Editando, with the item kept |
| ItemPage.MudarNome | src/pages/item.tsx:46 | a name edit changes only the draft name |
| ItemPage.MudarDescricao | src/pages/item.tsx:48 | a description edit changes only the draft description |
| ItemPage.ClicarSalvar | src/pages/item.tsx:50-73 | with an id: Salvando, and the update sends exactly `{id, novoNome, novaDescricao}`; without: ErroSalvar and no call; the item and the draft do not change |
| ItemPage.AoAtualizar | src/pages/item.tsx:61-68 | update success holds exactly the item sent and moves to Salvo; failure moves to ErroSalvar with the item untouched |
| ItemPage.ClicarCancelar | src/pages/item.tsx:75 | Cancelar always moves to Lido and keeps the item and the draft |
| ItemPage.ClicarRemover | src/pages/item.tsx:77-88 | with an id: Removendo and a delete of that id; without: ErroRemover and no call |
| ItemPage.AoRemover | src/pages/item.tsx:80-84 | delete success moves to Removido, failure to ErroRemover |
| ItemPage.Habilitada | src/pages/item.tsx:93-163 | only Lido, Salvo, Editando and ErroSalvar render a control that changes the screen; Removido renders Voltar alone |
| ItemPage.Responder | src/pages/item.tsx:29-84 | the response to the read gives Lido holding the body exactly on 200, else ErroLer; to the update, Salvo holding the item sent exactly on 204, else ErroSalvar with the item kept; to the delete, Removido exactly on 204, else ErroRemover; the draft and id never change |
| ItemPage.Passo | src/pages/item.tsx:93-163 | a user event happens exactly when its control is rendered; a response happens exactly when a call is outstanding, and then clears it; the route id never changes |
| ItemPage.InicioCoerente | src/pages/item.tsx:22-38 | the mounted screen satisfies the invariant and has a call outstanding exactly when the route has an id |
| ItemPage.AplicarPreservaCoerencia | src/pages/item.tsx:27-88 | every event keeps the invariant: an item is held exactly outside Lendo/ErroLer, and a call is outstanding exactly in the waiting states and carries what was sent |
| ItemPage.ExecutarPreservaCoerencia | src/pages/item.tsx:27-88 | every sequence of events keeps the invariant |
| ItemPage.EditarNuncaSemItem | src/pages/item.tsx:40-44 | after any history, whenever Editar is offered there is an item to copy from, so the handler never fails |
| ItemPage.ChamadaSoEmEspera | src/pages/item.tsx:27-88 | after any history, a call is outstanding only in Lendo, Salvando or Removendo |
| ItemPage.EsperaSoPorResposta | src/pages/item.tsx:93-163 | in Lendo, ErroLer, Salvando, Removendo, ErroRemover and Removido, and whenever a call is outstanding, no user event changes the session |
| ItemPage.ParadaEhDefinitiva | src/pages/item.tsx:99-129 | a session with nothing outstanding and no control but Voltar is unchanged by any sequence of events |
| ItemPage.BecosSemSaida | src/pages/item.tsx:99-129 | ErroLer and ErroRemover are dead ends, Removido is terminal, and without a route id the screen stays in Lendo |
| ItemPage.SalvarEResposta | src/pages/item.tsx:50-73 | Salvar then its response: on 204 the item becomes exactly the draft under the route id in Salvo; otherwise ErroSalvar with the item untouched; with no id nothing is sent |
| ItemPage.LerEResposta | src/pages/item.tsx:27-38 | mounting with an id and receiving the read's response gives Lido, holding exactly the body, on 200; on anything else it gives ErroLer with no item |
| ItemPage.RemoverEResposta | src/pages/item.tsx:77-88 | Remover then its response: Removido on 204, ErroRemover otherwise or without a route id; the held item is untouched |
| ItemPage.LerRespondido404 | src/pages/item.tsx:27-38 | loading item 1 answered by 404 ends in ErroLer |
| ItensPage.Montar | src/pages/itens.tsx:18-32 | the screen starts in Lendo with an empty list and draft and requests the whole list |
| ItensPage.AoLerTodos | src/pages/itens.tsx:25-31 | list success replaces the list with the returned sequence and moves to Lido; failure moves to ErroLer |
| ItensPage.ClicarNovo | src/pages/itens.tsx:34-38 | Novo clears both draft fields and moves to Criar with the list unchanged |
| ItensPage.ClicarCancelar | src/pages/itens.tsx:40 | Cancelar moves to Lido with the list unchanged |
| ItensPage.ClicarSalvar | src/pages/itens.tsx:42-47 | Salvar moves to Salvando and submits exactly the current draft |
| ItensPage.AoCriar | src/pages/itens.tsx:48-52 | create success grows the list by exactly the returned item at its end, earlier elements unchanged, in Criado; failure moves to ErroCriar with the list unchanged |
| ItensPage.MudarNome | src/pages/itens.tsx:56 | a name edit changes only the draft name |
| ItensPage.MudarDescricao | src/pages/itens.tsx:58 | a description edit changes only the draft description |
| ItensPage.Habilitada | src/pages/itens.tsx:86-111 | Lendo, ErroLer and Salvando render no action; Novo and the form are never on screen together |
| ItensPage.ListaVisivel | src/pages/itens.tsx:70-111 | the list is shown exactly where Novo is offered and while filling in a new item; after a failed create the form stays and the list is hidden |
| ItensPage.Passo | src/pages/itens.tsx:60-120 | a user event happens exactly when its control is rendered; a response happens exactly when it answers the outstanding call, and then clears it |
| ItensPage.InicioCoerente | src/pages/itens.tsx:18-32 | the mounted screen satisfies the invariant |
| ItensPage.AplicarPreservaCoerencia | src/pages/itens.tsx:23-58 | every event keeps the invariant: the list is requested exactly in Lendo; a create is outstanding exactly in Salvando, carrying the draft on screen |
| ItensPage.ExecutarPreservaCoerencia | src/pages/itens.tsx:23-58 | every sequence of events keeps the invariant |
| ItensPage.ListaSoCresce | src/pages/itens.tsx:48-51 | once loaded, the screen never returns to Lendo; the list only gains elements at its end, at most one per event |
| ItensPage.EsperaSoPorResposta | src/pages/itens.tsx:60-120 | in Lendo, ErroLer and Salvando, and whenever a call is outstanding, no user event changes the session |
| ItensPage.ErroLerSemSaida | src/pages/itens.tsx:67-111 | ErroLer is a dead end: no sequence of events changes the session |
| ItensPage.SalvarEResposta | src/pages/itens.tsx:42-53 | Salvar then the create's responses: the POST carries the draft; success appends exactly the fetched item in Criado; failure gives ErroCriar with the list unchanged |
| ItensPage.LerTodosEResposta | src/pages/itens.tsx:23-32 | mounting and receiving the list: Lido holding exactly the body for any resolved response, ErroLer on a rejection |
| ItensPage.CriarEnviaORascunho | src/pages/itens.tsx:42-58 | after any history, an outstanding create carries exactly the draft still on screen, in Salvando |
| ItensPage.ListaComUmItem | src/pages/itens.tsx:23-32 | a one-item answer to the mount gives Lido, with that one item held and the list shown |
| ItensPage.CriarItemCinco | src/pages/itens.tsx:42-51 | a 201 with `Location: /itens/5` makes the follow-up read item 5, and the created item ends the list |
| ItemPage.CliqueDesmontaOFormulario | src/pages/item.tsx:143-162 | from any reachable session, an offered Salvar or Cancelar click leaves a state outside Editando/ErroSalvar, so the edit form rendered only there is unmounted by the click itself |
| ItensPage.CliqueDesmontaOFormulario | src/pages/itens.tsx:91-111 | an offered Salvar or Cancelar click leaves a state outside Criar/ErroCriar, so the new-item form rendered only there is unmounted by the click itself; Salvar leaves the create outstanding |

## Left out

- `src/App.tsx`, the route table, is framework configuration. The route id reaches the detail screen as an optional natural number.
- JSX markup and messages are left out. Only the render conditions are kept, as guards. Voltar's `navigate('/itens')` leaves the screen and is modelled as not changing it.
- Salvar and Cancelar are untyped buttons in a form without a submit handler. Each click's state change unmounts the form before the browser's default action, so the browser drops the submission. A click is modelled as its handler alone; `CliqueDesmontaOFormulario` on each screen proves that the click leaves a state in which the form is not rendered.
- React hook mechanics are left out: `useEffect` dependency arrays and re-rendering. Each mount effect runs once, when the session starts.
- The axios transport is left out, including its default `validateStatus`, which turns non-2xx statuses into rejections. Statuses are classified exactly as the code tests them.
- A missing `Location` header is not modelled. The source then concatenates the text `undefined`, and the model treats the header as an arbitrary string.
- Decimal.Natural: writes every natural in plain digits. JavaScript does so only below 10^21 (from there on it writes `1e+21`), and it holds integers exactly only below 2^53. Ids are modelled as unbounded integers, so the rendering is faithful for safe integers only.
- The `+id` string-to-number coercion and its `NaN` cases are not modelled. `remover` receives the raw route string in the source; the model passes the same id as a number.
- Late responses after navigation, and the lack of cancellation, are concurrency concerns. A response is an event applied to whatever state is current.
- A `sucesso` callback that throws, after which the surrounding `.catch` calls `falha`, is exception semantics. Callbacks are assumed not to throw.
- `criar`'s POST and follow-up GET arrive as one event. The screen does not change between the two.
- The list screen appends with `itens.push`, mutating its state array in place. It is modelled as the list value becoming the old list plus the new item. This is what the next render shows.
- List links (`/itens/${item.id}`) are markup and are not modelled.
- `lerTodos` succeeds on any resolved status, whatever it is. A successful delete keeps `item` in the screen state; Removido just does not render it.

=== FILE: decimal.dfy ===
/** Decimal rendering of numbers, as a JavaScript template literal `${n}` writes an
    integer into a URL, together with the reading that inverts it. JavaScript
    writes plain digits only for integers below 10^21 in magnitude, and holds
    integers exactly only below 2^53; the rendering here is that of the safe
    integers, extended to every integer. */
module Decimal {
  import opened Resultados

  predicate EhDigito(c: char) {
    '0' <= c <= '9'
  }

  predicate SoDigitos(s: string) {
    forall i :: 0 <= i < |s| ==> EhDigito(s[i])
  }

  function ValorDigito(c: char): (d: nat)
    requires EhDigito(c)
    ensures d < 10
  {
    c as int - '0' as int
  }

  function Digito(d: nat): (c: char)
    requires d < 10
    ensures EhDigito(c) && ValorDigito(c) == d
  {
    (d + '0' as int) as char
  }

  /** The shortest decimal numeral of `n`. */
  function Natural(n: nat): (s: string)
    ensures |s| > 0 && SoDigitos(s)
    ensures n > 0 ==> s[0] != '0'
    decreases n
  {
    if n < 10 then [Digito(n)] else Natural(n / 10) + [Digito(n % 10)]
  }

  /** The value of a numeral, most significant digit first. */
  function LerNatural(s: string): nat
    requires SoDigitos(s)
    decreases |s|
  {
    if |s| == 0 then 0 else LerNatural(s[..|s| - 1]) * 10 + ValorDigito(s[|s| - 1])
  }

  lemma {:induction false} LerNaturalDeNatural(n: nat)
    ensures LerNatural(Natural(n)) == n
    decreases n
  {
    if n >= 10 {
      var p := Natural(n / 10);
      assert Natural(n) == p + [Digito(n % 10)];
      assert Natural(n)[..|Natural(n)| - 1] == p;
      LerNaturalDeNatural(n / 10);
    }
  }

  /** An integer as `${n}` writes it: a minus sign before negative numbers,
      then the digits of the magnitude. */
  function Inteiro(n: int): (s: string)
    ensures |s| > 0
    ensures s[0] == '-' <==> n < 0
    ensures n < 0 ==> |s| > 1 && SoDigitos(s[1..])
    ensures n >= 0 ==> SoDigitos(s)
    ensures n != 0 ==> s[if n < 0 then 1 else 0] != '0'
  {
    if n < 0 then "-" + Natural(-n) else Natural(n)
  }

  /** Reads a (possibly signed) decimal numeral; anything else is None. */
  function LerInteiro(s: string): Option<int>
  {
    if |s| > 1 && s[0] == '-' && SoDigitos(s[1..]) then Some(0 - LerNatural(s[1..]) as int)
    else if |s| > 0 && SoDigitos(s) then Some(LerNatural(s) as int)
    else None
  }

  lemma LerInteiroDeInteiro(n: int)
    ensures LerInteiro(Inteiro(n)) == Some(n)
  {
    if n < 0 {
      assert Inteiro(n)[1..] == Natural(-n);
      LerNaturalDeNatural(-n);
    } else {
      assert EhDigito(Natural(n)[0]);
      LerNaturalDeNatural(n);
    }
  }

  /** Distinct integers are written differently. */
  lemma InteiroInjetivo(a: int, b: int)
    requires Inteiro(a) == Inteiro(b)
    ensures a == b
  {
    LerInteiroDeInteiro(a);
    LerInteiroDeInteiro(b);
  }
}

=== FILE: item_page.dfy ===
/** The detail screen of one item: its states, the handlers that move between
    them, the render conditions that decide which handlers can fire, and the
    screen together with its outstanding service call. */
module ItemPage {
  import opened Resultados
  import opened Modelo
  import S = ItensService
  import T = Trajetoria

  datatype Estado =
    | Lendo | ErroLer | Lido | Editando | Salvando | ErroSalvar | Salvo
    | Removendo | ErroRemover | Removido

  /** The screen's state: the enum, the loaded item, the draft fields and the
      route id (absent when the route carries none). */
  datatype Tela = Tela(estado: Estado, item: Option<Item>, novoNome: string, novaDescricao: string, id: Option<nat>)

  /** What a handler leaves behind: the new screen and the service call it
      started, if any. */
  datatype Efeito = Efeito(tela: Tela, chamada: Option<S.Chamada>)

  /** The draft and the route id are as they were. */
  predicate MesmoRascunhoEId(t: Tela, u: Tela) {
    u.novoNome == t.novoNome && u.novaDescricao == t.novaDescricao && u.id == t.id
  }

  /** Mount: the screen starts in Lendo with no item and an empty draft; the
      item is requested only when the route carries an id. */
  function Montar(id: Option<nat>): (e: Efeito)
    ensures e.tela.estado == Lendo && e.tela.item.None? && e.tela.id == id
    ensures e.tela.novoNome == "" && e.tela.novaDescricao == ""
    ensures e.chamada.Some? <==> id.Some?
    ensures id.Some? ==> e.chamada == Some(S.Ler(id.value))
  {
    Efeito(Tela(Lendo, None, "", "", id), if id.Some? then Some(S.Ler(id.value)) else None)
  }

  /** The callbacks passed to `ler`. */
  function AoLer(t: Tela, d: Desfecho<Item>): (u: Tela)
    ensures d.Sucesso? ==> u.estado == Lido && u.item == Some(d.valor)
    ensures d.Falha? ==> u.estado == ErroLer && u.item == t.item
    ensures MesmoRascunhoEId(t, u)
  {
    match d
    case Sucesso(x) => t.(estado := Lido, item := Some(x))
    case Falha => t.(estado := ErroLer)
  }

  /** Editar seeds the draft from the loaded item, which it dereferences
      unconditionally. */
  function ClicarEditar(t: Tela): (u: Tela)
    requires t.item.Some?
    ensures u.estado == Editando && u.item == t.item && u.id == t.id
    ensures u.novoNome == t.item.value.nome && u.novaDescricao == t.item.value.descricao
  {
    t.(estado := Editando, novoNome := t.item.value.nome, novaDescricao := t.item.value.descricao)
  }

  function MudarNome(t: Tela, v: string): (u: Tela)
    ensures u.novoNome == v && u.novaDescricao == t.novaDescricao
    ensures u.estado == t.estado && u.item == t.item && u.id == t.id
  {
    t.(novoNome := v)
  }

  function MudarDescricao(t: Tela, v: string): (u: Tela)
    ensures u.novaDescricao == v && u.novoNome == t.novoNome
    ensures u.estado == t.estado && u.item == t.item && u.id == t.id
  {
    t.(novaDescricao := v)
  }

  /** Salvar sends the draft under the route id; with no id it fails at once
      (the handler sets Salvando and then ErroSalvar, and the later one wins). */
  function ClicarSalvar(t: Tela): (e: Efeito)
    ensures e.tela.item == t.item && MesmoRascunhoEId(t, e.tela)
    ensures t.id.Some? ==> e.tela.estado == Salvando
    ensures t.id.Some? ==> e.chamada == Some(S.Atualizar(Item(t.id.value, t.novoNome, t.novaDescricao)))
    ensures t.id.None? ==> e.tela.estado == ErroSalvar && e.chamada.None?
  {
    match t.id
    case Some(n) => Efeito(t.(estado := Salvando), Some(S.Atualizar(Item(n, t.novoNome, t.novaDescricao))))
    case None => Efeito(t.(estado := ErroSalvar), None)
  }

  /** The callbacks passed to `atualizar`; `novoItem` is the item the call sent. */
  function AoAtualizar(t: Tela, novoItem: Item, d: Desfecho<()>): (u: Tela)
    ensures d.Sucesso? ==> u.estado == Salvo && u.item == Some(novoItem)
    ensures d.Falha? ==> u.estado == ErroSalvar && u.item == t.item
    ensures MesmoRascunhoEId(t, u)
  {
    match d
    case Sucesso(_) => t.(estado := Salvo, item := Some(novoItem))
    case Falha => t.(estado := ErroSalvar)
  }

  /** Cancelar returns to Lido from wherever it is clicked, keeping the item. */
  function ClicarCancelar(t: Tela): (u: Tela)
    ensures u.estado == Lido && u.item == t.item && MesmoRascunhoEId(t, u)
  {
    t.(estado := Lido)
  }

  /** Remover deletes the route id; with no id it fails at once. */
  function ClicarRemover(t: Tela): (e: Efeito)
    ensures e.tela.item == t.item && MesmoRascunhoEId(t, e.tela)
    ensures t.id.Some? ==> e.tela.estado == Removendo && e.chamada == Some(S.Remover(t.id.value))
    ensures t.id.None? ==> e.tela.estado == ErroRemover && e.chamada.None?
  {
    match t.id
    case Some(n) => Efeito(t.(estado := Removendo), Some(S.Remover(n)))
    case None => Efeito(t.(estado := ErroRemover), None)
  }

  /** The callbacks passed to `remover`. */
  function AoRemover(t: Tela, d: Desfecho<()>): (u: Tela)
    ensures u.estado == (if d.Sucesso? then Removido else ErroRemover)
    ensures u.item == t.item && MesmoRascunhoEId(t, u)
  {
    match d
    case Sucesso(_) => t.(estado := Removido)
    case Falha => t.(estado := ErroRemover)
  }

  /** The user actions the screen renders controls for. `Campos` stands for the
      two form fields, `Voltar` for the navigation back to the list. */
  datatype Acao = Editar | Remover | Salvar | Cancelar | Campos | Voltar

  /** The render conditions: the action's control is on screen in state `e`.
      Only Lido, Salvo, Editando and ErroSalvar render a control that changes
      the screen, and Removido renders Voltar alone. */
  predicate Habilitada(e: Estado, a: Acao)
    ensures Habilitada(e, a) && a != Voltar ==> e in {Lido, Salvo, Editando, ErroSalvar}
    ensures e == Removido ==> (Habilitada(e, a) <==> a == Voltar)
  {
    match a
    case Editar | Remover => e == Lido || e == Salvo
    case Salvar | Cancelar | Campos => e == Editando || e == ErroSalvar
    case Voltar => e == Removido
  }

  /** The screen together with the service call it is waiting on. */
  datatype Sessao = Sessao(tela: Tela, pendente: Option<S.Chamada>)

  /** A user event, or the arrival of the response to the outstanding call. */
  datatype Evento =
    | CliqueEditar | NovoNome(v: string) | NovaDescricao(v: string)
    | CliqueSalvar | CliqueCancelar | CliqueRemover | CliqueVoltar
    | Chega(r: S.Resposta<Item>)

  function Iniciar(id: Option<nat>): Sessao {
    var e := Montar(id);
    Sessao(e.tela, e.chamada)
  }

  /** Runs the callback of call `c` on the response `r`, through the client's
      classification of that operation. */
  function Responder(t: Tela, c: S.Chamada, r: S.Resposta<Item>): (u: Tela)
    ensures MesmoRascunhoEId(t, u)
    ensures c.Ler? ==> (u.estado == Lido <==> r.Resolvida? && r.status == 200)
    ensures c.Ler? ==> (if u.estado == Lido then u.item == Some(r.corpo) else u.estado == ErroLer && u.item == t.item)
    ensures c.Atualizar? ==> (u.estado == Salvo <==> r.Resolvida? && r.status == 204)
    ensures c.Atualizar? ==> (if u.estado == Salvo then u.item == Some(c.item) else u.estado == ErroSalvar && u.item == t.item)
    ensures c.Remover? ==> u.item == t.item && u.estado == (if r.Resolvida? && r.status == 204 then Removido else ErroRemover)
  {
    match c
    case Ler(_) => AoLer(t, S.DesfechoDeLer(r))
    case Atualizar(x) => AoAtualizar(t, x, S.DesfechoDeAtualizar(r))
    case Remover(_) => AoRemover(t, S.DesfechoDeRemover(r))
    case _ => t
  }

  /** One event. None when it cannot happen: its control is not rendered, or no
      call is outstanding for a response to answer. Voltar leaves the screen,
      whose state it does not change. */
  function Passo(s: Sessao, ev: Evento): (o: Option<Sessao>)
    ensures ev.Chega? ==> (o.Some? <==> s.pendente.Some?)
    ensures ev.Chega? && o.Some? ==> o.value.pendente.None?
    ensures ev.NovoNome? || ev.NovaDescricao? ==> (o.Some? <==> Habilitada(s.tela.estado, Campos))
    ensures ev == CliqueSalvar ==> (o.Some? <==> Habilitada(s.tela.estado, Salvar))
    ensures ev == CliqueCancelar ==> (o.Some? <==> Habilitada(s.tela.estado, Cancelar))
    ensures ev == CliqueRemover ==> (o.Some? <==> Habilitada(s.tela.estado, Remover))
    ensures ev == CliqueVoltar ==> (o.Some? <==> Habilitada(s.tela.estado, Voltar))
    ensures ev == CliqueEditar ==> (o.Some? <==> Habilitada(s.tela.estado, Editar) && s.tela.item.Some?)
    ensures o.Some? ==> o.value.tela.id == s.tela.id
  {
    var t := s.tela;
    match ev
    case CliqueEditar =>
      // The handler dereferences the item; the screen never offers Editar without one.
      if Habilitada(t.estado, Editar) && t.item.Some? then Some(Sessao(ClicarEditar(t), s.pendente)) else None
    case NovoNome(v) =>
      if Habilitada(t.estado, Campos) then Some(Sessao(MudarNome(t, v), s.pendente)) else None
    case NovaDescricao(v) =>
      if Habilitada(t.estado, Campos) then Some(Sessao(MudarDescricao(t, v), s.pendente)) else None
    case CliqueSalvar =>
      if Habilitada(t.estado, Salvar) then var e := ClicarSalvar(t); Some(Sessao(e.tela, e.chamada)) else None
    case CliqueCancelar =>
      if Habilitada(t.estado, Cancelar) then Some(Sessao(ClicarCancelar(t), s.pendente)) else None
    case CliqueRemover =>
      if Habilitada(t.estado, Remover) then var e := ClicarRemover(t); Some(Sessao(e.tela, e.chamada)) else None
    case CliqueVoltar =>
      if Habilitada(t.estado, Voltar) then Some(s) else None
    case Chega(r) =>
      match s.pendente
      case None => None
      case Some(c) => Some(Sessao(Responder(t, c, r), None))
  }

  /** An event that cannot happen leaves the session as it is. */
  function Aplicar(s: Sessao, ev: Evento): Sessao {
    match Passo(s, ev)
    case Some(u) => u
    case None => s
  }

  function Executar(s: Sessao, evs: seq<Evento>): Sessao {
    T.Executar(Aplicar, s, evs)
  }

  /** The invariant of every reachable session: an item is held exactly once it
      has been loaded, and a call is outstanding exactly in the states that
      wait for one, carrying what that state sent. */
  predicate Coerente(s: Sessao) {
    var t := s.tela;
    && (t.item.Some? <==> t.estado != Lendo && t.estado != ErroLer)
    && (t.estado != Lendo ==> t.id.Some?)
    && match s.pendente
       case None =>
         t.estado != Salvando && t.estado != Removendo && !(t.estado == Lendo && t.id.Some?)
       case Some(c) =>
         || (c.Ler? && t.estado == Lendo && t.id.Some? && c.id == t.id.value)
         || (c.Atualizar? && t.estado == Salvando && t.id.Some?
             && c.item == Item(t.id.value, t.novoNome, t.novaDescricao))
         || (c.Remover? && t.estado == Removendo && t.id.Some? && c.id == t.id.value)
  }

  lemma InicioCoerente(id: Option<nat>)
    ensures Coerente(Iniciar(id))
    ensures Iniciar(id).pendente.Some? <==> id.Some?
  {
  }

  lemma AplicarPreservaCoerencia(s: Sessao, ev: Evento)
    requires Coerente(s)
    ensures Coerente(Aplicar(s, ev))
  {
  }

  lemma ExecutarPreservaCoerencia(s: Sessao, evs: seq<Evento>)
    requires Coerente(s)
    ensures Coerente(Executar(s, evs))
  {
    forall x, e | Coerente(x)
      ensures Coerente(Aplicar(x, e))
    {
      AplicarPreservaCoerencia(x, e);
    }
    T.ExecutarPreserva(Aplicar, Coerente, s, evs);
  }

  /** After any history, Editar is offered only with an item to copy from, so
      its unconditional dereference never fails. */
  lemma EditarNuncaSemItem(id: Option<nat>, evs: seq<Evento>)
    ensures var s := Executar(Iniciar(id), evs);
            Habilitada(s.tela.estado, Editar) ==> s.tela.item.Some? && Passo(s, CliqueEditar).Some?
  {
    InicioCoerente(id);
    ExecutarPreservaCoerencia(Iniciar(id), evs);
  }

  /** After any history, a call is outstanding only while the screen shows
      Lendo, Salvando or Removendo. */
  lemma ChamadaSoEmEspera(id: Option<nat>, evs: seq<Evento>)
    ensures var s := Executar(Iniciar(id), evs);
            s.pendente.Some? ==> s.tela.estado in {Lendo, Salvando, Removendo}
  {
    InicioCoerente(id);
    ExecutarPreservaCoerencia(Iniciar(id), evs);
  }

  /** While a call is outstanding, and in every state that renders no control
      that changes the screen, only a response changes the session: no user
      event replaces the outstanding call. */
  lemma EsperaSoPorResposta(s: Sessao, ev: Evento)
    requires !ev.Chega?
    ensures s.tela.estado in {Lendo, ErroLer, Salvando, Removendo, ErroRemover, Removido} ==> Aplicar(s, ev) == s
    ensures Coerente(s) && s.pendente.Some? ==> Aplicar(s, ev) == s
  {
  }

  /** Nothing outstanding and no control but Voltar: no event changes anything. */
  predicate Parada(s: Sessao) {
    s.pendente.None? && forall a :: Habilitada(s.tela.estado, a) ==> a == Voltar
  }

  lemma {:induction false} ParadaEhDefinitiva(s: Sessao, evs: seq<Evento>)
    requires Parada(s)
    ensures Executar(s, evs) == s
    decreases |evs|
  {
    if |evs| > 0 {
      assert Aplicar(s, evs[0]) == s;
      ParadaEhDefinitiva(s, evs[1..]);
    }
  }

  /** ErroLer and ErroRemover are dead ends, Removido is terminal, and without a
      route id the screen stays in Lendo for good. */
  lemma BecosSemSaida(s: Sessao, evs: seq<Evento>)
    requires Coerente(s)
    requires s.tela.estado in {ErroLer, ErroRemover, Removido} || (s.tela.estado == Lendo && s.tela.id.None?)
    ensures Executar(s, evs) == s
  {
    assert Parada(s);
    ParadaEhDefinitiva(s, evs);
  }

  /** Salvar followed by the response to its PUT: on 204 the held item is
      exactly the draft under the route id; otherwise ErroSalvar with the item
      untouched. Without a route id nothing is sent and the response is never
      consumed. */
  lemma SalvarEResposta(s: Sessao, r: S.Resposta<Item>)
    requires Coerente(s) && Habilitada(s.tela.estado, Salvar)
    ensures var u := Executar(s, [CliqueSalvar, Chega(r)]);
            var t := s.tela;
            && (t.id.Some? && r.Resolvida? && r.status == 204 ==>
                  u.tela.estado == Salvo && u.tela.item == Some(Item(t.id.value, t.novoNome, t.novaDescricao)))
            && (t.id.Some? && !(r.Resolvida? && r.status == 204) ==>
                  u.tela.estado == ErroSalvar && u.tela.item == t.item)
            && (t.id.None? ==> u.tela.estado == ErroSalvar && u.tela.item == t.item && u.pendente.None?)
  {
    var m := Aplicar(s, CliqueSalvar);
    assert m == Sessao(ClicarSalvar(s.tela).tela, ClicarSalvar(s.tela).chamada);
    T.ExecutarDois(Aplicar, s, CliqueSalvar, Chega(r));
  }

  /** Mounting with a route id, then the response to the read: Lido holding
      exactly the body on 200, ErroLer with no item otherwise. */
  lemma LerEResposta(n: nat, r: S.Resposta<Item>)
    ensures var u := Executar(Iniciar(Some(n)), [Chega(r)]);
            && u.pendente.None?
            && (r.Resolvida? && r.status == 200 ==> u.tela.estado == Lido && u.tela.item == Some(r.corpo))
            && (!(r.Resolvida? && r.status == 200) ==> u.tela.estado == ErroLer && u.tela.item.None?)
  {
    T.ExecutarUm(Aplicar, Iniciar(Some(n)), Chega(r));
  }

  /** Remover followed by the response to its DELETE: Removido on 204,
      ErroRemover otherwise; the item held is not touched either way. */
  lemma RemoverEResposta(s: Sessao, r: S.Resposta<Item>)
    requires Coerente(s) && Habilitada(s.tela.estado, Remover)
    ensures var u := Executar(s, [CliqueRemover, Chega(r)]);
            && u.tela.item == s.tela.item
            && (s.tela.id.Some? && r.Resolvida? && r.status == 204 ==> u.tela.estado == Removido)
            && (s.tela.id.Some? && !(r.Resolvida? && r.status == 204) ==> u.tela.estado == ErroRemover)
            && (s.tela.id.None? ==> u.tela.estado == ErroRemover && u.pendente.None?)
  {
    T.ExecutarDois(Aplicar, s, CliqueRemover, Chega(r));
  }

  /** Loading item 1 answered by 404 ends in ErroLer, never in Lido. */
  lemma LerRespondido404(corpo: Item)
    ensures Executar(Iniciar(Some(1)), [Chega(S.Resolvida(404, corpo, ""))]).tela.estado == ErroLer
  {
    T.ExecutarUm(Aplicar, Iniciar(Some(1)), Chega(S.Resolvida(404, corpo, "")));
  }

  /** Salvar and Cancelar each leave a state in which the edit form is no
      longer rendered, so the form is unmounted by the click's own update. */
  lemma CliqueDesmontaOFormulario(s: Sessao, ev: Evento)
    requires Coerente(s)
    requires ev == CliqueSalvar || ev == CliqueCancelar
    requires Passo(s, ev).Some?
    ensures !Habilitada(Aplicar(s, ev).tela.estado, Campos)
    ensures Coerente(Aplicar(s, ev))
  {
    AplicarPreservaCoerencia(s, ev);
  }
}

=== FILE: itens_page.dfy ===
/** The list screen: the items loaded on mount, and the sub-flow that creates
    one more and appends it to the list held on screen. */
module ItensPage {
  import opened Resultados
  import opened Modelo
  import S = ItensService
  import T = Trajetoria

  datatype Estado = Lendo | ErroLer | Lido | Criar | Salvando | ErroCriar | Criado

  /** The screen's state: the enum, the list it holds and the draft fields. */
  datatype Tela = Tela(estado: Estado, itens: seq<Item>, nome: string, descricao: string)

  datatype Efeito = Efeito(tela: Tela, chamada: Option<S.Chamada>)

  /** Mount: Lendo with an empty list and draft, and the whole list requested. */
  function Montar(): (e: Efeito)
    ensures e.tela.estado == Lendo && e.tela.itens == []
    ensures e.tela.nome == "" && e.tela.descricao == ""
    ensures e.chamada == Some(S.LerTodos)
  {
    Efeito(Tela(Lendo, [], "", ""), Some(S.LerTodos))
  }

  /** The callbacks passed to `lerTodos`: success replaces the list. */
  function AoLerTodos(t: Tela, d: Desfecho<seq<Item>>): (u: Tela)
    ensures d.Sucesso? ==> u.estado == Lido && u.itens == d.valor
    ensures d.Falha? ==> u.estado == ErroLer && u.itens == t.itens
    ensures u.nome == t.nome && u.descricao == t.descricao
  {
    match d
    case Sucesso(xs) => t.(estado := Lido, itens := xs)
    case Falha => t.(estado := ErroLer)
  }

  /** Novo clears the draft. */
  function ClicarNovo(t: Tela): (u: Tela)
    ensures u.estado == Criar && u.nome == "" && u.descricao == "" && u.itens == t.itens
  {
    t.(estado := Criar, nome := "", descricao := "")
  }

  function ClicarCancelar(t: Tela): (u: Tela)
    ensures u.estado == Lido && u.itens == t.itens
    ensures u.nome == t.nome && u.descricao == t.descricao
  {
    t.(estado := Lido)
  }

  /** Salvar sends exactly the current draft to `criar`. */
  function ClicarSalvar(t: Tela): (e: Efeito)
    ensures e.tela.estado == Salvando && e.tela.itens == t.itens
    ensures e.tela.nome == t.nome && e.tela.descricao == t.descricao
    ensures e.chamada == Some(S.Criar(Rascunho(t.nome, t.descricao)))
  {
    Efeito(t.(estado := Salvando), Some(S.Criar(Rascunho(t.nome, t.descricao))))
  }

  /** The callbacks passed to `criar`: success appends the created item. */
  function AoCriar(t: Tela, d: Desfecho<Item>): (u: Tela)
    ensures d.Sucesso? ==> u.estado == Criado && |u.itens| == |t.itens| + 1
    ensures d.Sucesso? ==> u.itens[..|t.itens|] == t.itens && u.itens[|t.itens|] == d.valor
    ensures d.Falha? ==> u.estado == ErroCriar && u.itens == t.itens
    ensures u.nome == t.nome && u.descricao == t.descricao
  {
    match d
    case Sucesso(x) => t.(estado := Criado, itens := t.itens + [x])
    case Falha => t.(estado := ErroCriar)
  }

  function MudarNome(t: Tela, v: string): (u: Tela)
    ensures u.nome == v && u.descricao == t.descricao && u.estado == t.estado && u.itens == t.itens
  {
    t.(nome := v)
  }

  function MudarDescricao(t: Tela, v: string): (u: Tela)
    ensures u.descricao == v && u.nome == t.nome && u.estado == t.estado && u.itens == t.itens
  {
    t.(descricao := v)
  }

  /** The user actions the screen renders controls for; `Campos` stands for the
      two form fields. */
  datatype Acao = Novo | Salvar | Cancelar | Campos

  /** The render conditions: the action's control is on screen in state `e`.
      Lendo, ErroLer and Salvando render no action; Novo and the form are never
      on screen together. */
  predicate Habilitada(e: Estado, a: Acao)
    ensures Habilitada(e, a) ==> e != Lendo && e != ErroLer && e != Salvando
    ensures Habilitada(e, a) && a != Novo ==> e != Lido && e != Criado
    ensures Habilitada(e, a) && a == Novo ==> e != Criar && e != ErroCriar
  {
    match a
    case Novo => e == Lido || e == Criado
    case Salvar | Cancelar | Campos => e == Criar || e == ErroCriar
  }

  /** The list itself is rendered only in these states: wherever Novo is
      offered, and while a new item is being filled in, but not once a create
      has failed. */
  predicate ListaVisivel(e: Estado)
    ensures ListaVisivel(e) <==> Habilitada(e, Novo) || e == Criar
    ensures e == ErroCriar ==> !ListaVisivel(e) && Habilitada(e, Salvar)
  {
    e == Lido || e == Criar || e == Criado
  }

  /** The screen together with the service call it is waiting on. */
  datatype Sessao = Sessao(tela: Tela, pendente: Option<S.Chamada>)

  /** A user event, or the arrival of the responses to the outstanding call;
      for `criar` both the POST's and the follow-up GET's. */
  datatype Evento =
    | CliqueNovo | CliqueSalvar | CliqueCancelar | NovoNome(v: string) | NovaDescricao(v: string)
    | ChegaLista(r: S.Resposta<seq<Item>>)
    | ChegaCriado(post: S.Resposta<()>, get: S.Resposta<Item>)

  function Iniciar(): Sessao {
    var e := Montar();
    Sessao(e.tela, e.chamada)
  }

  /** One event. None when it cannot happen: its control is not rendered, or the
      response does not answer the outstanding call. */
  function Passo(s: Sessao, ev: Evento): (o: Option<Sessao>)
    ensures ev == CliqueNovo ==> (o.Some? <==> Habilitada(s.tela.estado, Novo))
    ensures ev == CliqueSalvar ==> (o.Some? <==> Habilitada(s.tela.estado, Salvar))
    ensures ev == CliqueCancelar ==> (o.Some? <==> Habilitada(s.tela.estado, Cancelar))
    ensures ev.NovoNome? || ev.NovaDescricao? ==> (o.Some? <==> Habilitada(s.tela.estado, Campos))
    ensures ev.ChegaLista? ==> (o.Some? <==> s.pendente == Some(S.LerTodos))
    ensures ev.ChegaCriado? ==> (o.Some? <==> s.pendente.Some? && s.pendente.value.Criar?)
    ensures (ev.ChegaLista? || ev.ChegaCriado?) && o.Some? ==> o.value.pendente.None?
  {
    var t := s.tela;
    match ev
    case CliqueNovo =>
      if Habilitada(t.estado, Novo) then Some(Sessao(ClicarNovo(t), s.pendente)) else None
    case CliqueSalvar =>
      if Habilitada(t.estado, Salvar) then var e := ClicarSalvar(t); Some(Sessao(e.tela, e.chamada)) else None
    case CliqueCancelar =>
      if Habilitada(t.estado, Cancelar) then Some(Sessao(ClicarCancelar(t), s.pendente)) else None
    case NovoNome(v) =>
      if Habilitada(t.estado, Campos) then Some(Sessao(MudarNome(t, v), s.pendente)) else None
    case NovaDescricao(v) =>
      if Habilitada(t.estado, Campos) then Some(Sessao(MudarDescricao(t, v), s.pendente)) else None
    case ChegaLista(r) =>
      if s.pendente == Some(S.LerTodos) then Some(Sessao(AoLerTodos(t, S.DesfechoDeLerTodos(r)), None)) else None
    case ChegaCriado(post, get) =>
      if s.pendente.Some? && s.pendente.value.Criar?
      then Some(Sessao(AoCriar(t, S.DesfechoDeCriar(post, get)), None))
      else None
  }

  /** An event that cannot happen leaves the session as it is. */
  function Aplicar(s: Sessao, ev: Evento): Sessao {
    match Passo(s, ev)
    case Some(u) => u
    case None => s
  }

  function Executar(s: Sessao, evs: seq<Evento>): Sessao {
    T.Executar(Aplicar, s, evs)
  }

  /** The invariant of every reachable session: the list is requested exactly
      while Lendo, and a create is outstanding exactly while Salvando, carrying
      the draft still on screen. */
  predicate Coerente(s: Sessao) {
    var t := s.tela;
    && (t.estado == Lendo ==> t.itens == [])
    && match s.pendente
       case None => t.estado != Lendo && t.estado != Salvando
       case Some(c) =>
         || (c == S.LerTodos && t.estado == Lendo)
         || (c.Criar? && t.estado == Salvando && c.rascunho == Rascunho(t.nome, t.descricao))
  }

  lemma InicioCoerente()
    ensures Coerente(Iniciar())
  {
  }

  lemma AplicarPreservaCoerencia(s: Sessao, ev: Evento)
    requires Coerente(s)
    ensures Coerente(Aplicar(s, ev))
  {
  }

  lemma ExecutarPreservaCoerencia(s: Sessao, evs: seq<Evento>)
    requires Coerente(s)
    ensures Coerente(Executar(s, evs))
  {
    forall x, e | Coerente(x)
      ensures Coerente(Aplicar(x, e))
    {
      AplicarPreservaCoerencia(x, e);
    }
    T.ExecutarPreserva(Aplicar, Coerente, s, evs);
  }

  /** Once loaded, the list only grows at its end: no later event returns to
      Lendo, replaces the list or changes an element already shown, and each
      event adds at most one element. */
  lemma {:induction false} ListaSoCresce(s: Sessao, evs: seq<Evento>)
    requires Coerente(s) && s.tela.estado != Lendo
    ensures var u := Executar(s, evs);
            && u.tela.estado != Lendo
            && s.tela.itens <= u.tela.itens
            && |u.tela.itens| <= |s.tela.itens| + |evs|
    decreases |evs|
  {
    if |evs| > 0 {
      var m := Aplicar(s, evs[0]);
      assert m.tela.estado != Lendo;
      assert s.tela.itens <= m.tela.itens && |m.tela.itens| <= |s.tela.itens| + 1;
      AplicarPreservaCoerencia(s, evs[0]);
      ListaSoCresce(m, evs[1..]);
    }
  }

  /** In Lendo, ErroLer and Salvando, and whenever a call is outstanding, only
      a response changes the session: no user event replaces the outstanding
      call. */
  lemma EsperaSoPorResposta(s: Sessao, ev: Evento)
    requires !ev.ChegaLista? && !ev.ChegaCriado?
    ensures s.tela.estado in {Lendo, ErroLer, Salvando} ==> Aplicar(s, ev) == s
    ensures Coerente(s) && s.pendente.Some? ==> Aplicar(s, ev) == s
  {
  }

  /** ErroLer is a dead end: nothing outstanding, no control rendered. */
  lemma {:induction false} ErroLerSemSaida(s: Sessao, evs: seq<Evento>)
    requires Coerente(s) && s.tela.estado == ErroLer
    ensures Executar(s, evs) == s
    decreases |evs|
  {
    if |evs| > 0 {
      assert Aplicar(s, evs[0]) == s;
      ErroLerSemSaida(s, evs[1..]);
    }
  }

  /** Salvar followed by the responses to the create: the POST carries the
      draft; on success the list gains exactly the fetched item at its end,
      otherwise ErroCriar with the list unchanged. */
  lemma SalvarEResposta(s: Sessao, post: S.Resposta<()>, get: S.Resposta<Item>)
    requires Coerente(s) && Habilitada(s.tela.estado, Salvar)
    ensures Aplicar(s, CliqueSalvar).pendente == Some(S.Criar(Rascunho(s.tela.nome, s.tela.descricao)))
    ensures var u := Executar(s, [CliqueSalvar, ChegaCriado(post, get)]);
            var d := S.DesfechoDeCriar(post, get);
            && (d.Sucesso? ==> u.tela.estado == Criado && u.tela.itens == s.tela.itens + [get.corpo])
            && (d.Falha? ==> u.tela.estado == ErroCriar && u.tela.itens == s.tela.itens)
  {
    T.ExecutarDois(Aplicar, s, CliqueSalvar, ChegaCriado(post, get));
  }

  /** Mounting, then the response to the list request: Lido holding exactly
      the body for any resolved response, ErroLer with an empty list on a
      rejection. */
  lemma LerTodosEResposta(r: S.Resposta<seq<Item>>)
    ensures var u := Executar(Iniciar(), [ChegaLista(r)]);
            && u.pendente.None?
            && (r.Resolvida? ==> u.tela.estado == Lido && u.tela.itens == r.corpo)
            && (r.Rejeitada? ==> u.tela.estado == ErroLer && u.tela.itens == [])
  {
    T.ExecutarUm(Aplicar, Iniciar(), ChegaLista(r));
  }

  /** After any history, a create that is outstanding carries the draft the
      screen still shows: the draft cannot change while it waits. */
  lemma CriarEnviaORascunho(evs: seq<Evento>)
    ensures var u := Executar(Iniciar(), evs);
            u.pendente.Some? && u.pendente.value.Criar? ==>
              u.tela.estado == Salvando && u.pendente.value.rascunho == Rascunho(u.tela.nome, u.tela.descricao)
  {
    InicioCoerente();
    ExecutarPreservaCoerencia(Iniciar(), evs);
  }

  /** A list of one item, answered to the mount, is shown as that one item. */
  lemma ListaComUmItem()
    ensures var u := Executar(Iniciar(), [ChegaLista(S.Resolvida(200, [Item(1, "A", "d")], ""))]);
            u.tela.estado == Lido && ListaVisivel(u.tela.estado) && u.tela.itens == [Item(1, "A", "d")]
  {
    var evs := [ChegaLista(S.Resolvida(200, [Item(1, "A", "d")], ""))];
    assert evs[1..] == [];
  }

  /** Creating {X, y}: the server answers 201 with `Location: /itens/5`, the
      follow-up GET of item 5 returns it, and it ends the list. */
  lemma CriarItemCinco(s: Sessao)
    requires Coerente(s) && s.tela.estado == Criar
    requires s.tela.nome == "X" && s.tela.descricao == "y"
    ensures var post := S.Resolvida(201, (), "/itens/5");
            var get := S.Resolvida(200, Item(5, "X", "y"), "");
            var u := Executar(s, [CliqueSalvar, ChegaCriado(post, get)]);
            && S.PedidoDeSeguimento(post) == Some(S.PedidoDe(S.Ler(5)))
            && u.tela.estado == Criado
            && u.tela.itens[|u.tela.itens| - 1].id == 5
  {
    var post := S.Resolvida(201, (), "/itens/5");
    var get := S.Resolvida(200, Item(5, "X", "y"), "");
    assert "/itens/5" == "/itens/" + "5";
    S.SeguimentoLeOItemCriado(post, 5);
    SalvarEResposta(s, post, get);
  }

  /** Salvar and Cancelar each leave a state in which the new-item form is no
      longer rendered, so the form is unmounted by the click's own update. */
  lemma CliqueDesmontaOFormulario(s: Sessao, ev: Evento)
    requires ev == CliqueSalvar || ev == CliqueCancelar
    requires Passo(s, ev).Some?
    ensures !Habilitada(Aplicar(s, ev).tela.estado, Campos)
    ensures ev == CliqueSalvar ==> Aplicar(s, ev).pendente.Some?
  {
  }
}

=== FILE: itens_service.dfy ===
/** The items client: which HTTP request each operation issues, and how the
    outcome of that request is turned into `sucesso` or `falha`. The network is
    abstract: a request either resolves with a status, a body and a `Location`
    header, or is rejected. */
module ItensService {
  import opened Resultados
  import opened Modelo
  import Decimal

  /** The outcome of one HTTP request, as the client sees it. */
  datatype Resposta<+B> = Resolvida(status: int, corpo: B, location: string) | Rejeitada

  const Api: string := "http://localhost:4000/api"
  const Colecao: string := Api + "/itens"

  /** The resource of one item, `${Colecao}/${id}`: a URL under the collection
      from which exactly that id is read back. */
  function UrlDoItem(id: int): (u: string)
    ensures Colecao + "/" <= u
    ensures IdDaUrl(u) == Some(id)
  {
    var prefixo := Colecao + "/";
    var u := prefixo + Decimal.Inteiro(id);
    assert u[|prefixo|..] == Decimal.Inteiro(id);
    Decimal.LerInteiroDeInteiro(id);
    u
  }

  /** The id an item URL addresses, if the URL is one. */
  function IdDaUrl(url: string): Option<int> {
    var prefixo := Colecao + "/";
    if prefixo <= url then Decimal.LerInteiro(url[|prefixo|..]) else None
  }

  datatype Metodo = GET | PUT | DELETE | POST
  datatype Envio = SemCorpo | ComItem(item: Item) | ComRascunho(rascunho: Rascunho)
  datatype Pedido = Pedido(metodo: Metodo, url: string, envio: Envio)

  /** The five operations of the client, with their arguments. */
  datatype Chamada =
    | LerTodos
    | Ler(id: int)
    | Atualizar(item: Item)
    | Remover(id: int)
    | Criar(rascunho: Rascunho)

  /** The (first) request an operation issues. */
  function PedidoDe(c: Chamada): (p: Pedido)
    ensures c.LerTodos? || c.Ler? ==> p.metodo == GET
    ensures c.Atualizar? ==> p.metodo == PUT
    ensures c.Remover? ==> p.metodo == DELETE
    ensures c.Criar? ==> p.metodo == POST
    ensures c.LerTodos? || c.Criar? ==> p.url == Colecao
    ensures c.Ler? || c.Remover? ==> IdDaUrl(p.url) == Some(c.id)
    ensures c.Atualizar? ==> IdDaUrl(p.url) == Some(c.item.id) && p.envio == ComItem(c.item)
    ensures c.Criar? ==> p.envio == ComRascunho(c.rascunho)
    ensures p.envio.SemCorpo? <==> !(c.Atualizar? || c.Criar?)
  {
    match c
    case LerTodos => Pedido(GET, Colecao, SemCorpo)
    case Ler(id) => Pedido(GET, UrlDoItem(id), SemCorpo)
    case Atualizar(item) => Pedido(PUT, UrlDoItem(item.id), ComItem(item))
    case Remover(id) => Pedido(DELETE, UrlDoItem(id), SemCorpo)
    case Criar(r) => Pedido(POST, Colecao, ComRascunho(r))
  }

  /** Different items are addressed at different URLs. */
  lemma UrlDoItemInjetiva(a: int, b: int)
    requires UrlDoItem(a) == UrlDoItem(b)
    ensures a == b
  {
  }

  /** lerTodos: every resolved response is a success, whatever its status. */
  function DesfechoDeLerTodos(r: Resposta<seq<Item>>): (d: Desfecho<seq<Item>>)
    ensures d.Sucesso? <==> r.Resolvida?
    ensures d.Sucesso? ==> d.valor == r.corpo
  {
    match r
    case Resolvida(_, corpo, _) => Sucesso(corpo)
    case Rejeitada => Falha
  }

  /** ler: success exactly on status 200, delivering the body. */
  function DesfechoDeLer(r: Resposta<Item>): (d: Desfecho<Item>)
    ensures d.Sucesso? <==> r.Resolvida? && r.status == 200
    ensures d.Sucesso? ==> d.valor == r.corpo
  {
    match r
    case Resolvida(status, corpo, _) => if status == 200 then Sucesso(corpo) else Falha
    case Rejeitada => Falha
  }

  /** atualizar: success exactly on status 204; the body is ignored. */
  function DesfechoDeAtualizar<B>(r: Resposta<B>): (d: Desfecho<()>)
    ensures d.Sucesso? <==> r.Resolvida? && r.status == 204
  {
    match r
    case Resolvida(status, _, _) => if status == 204 then Sucesso(()) else Falha
    case Rejeitada => Falha
  }

  /** remover: success exactly on status 204; the body is ignored. */
  function DesfechoDeRemover<B>(r: Resposta<B>): (d: Desfecho<()>)
    ensures d.Sucesso? <==> r.Resolvida? && r.status == 204
  {
    match r
    case Resolvida(status, _, _) => if status == 204 then Sucesso(()) else Falha
    case Rejeitada => Falha
  }

  /** criar, first step: the follow-up GET is issued only after a 201, and it
      targets the API prefix followed by the `Location` header. */
  function PedidoDeSeguimento<B>(post: Resposta<B>): (p: Option<Pedido>)
    ensures p.Some? <==> post.Resolvida? && post.status == 201
    ensures p.Some? ==> p.value.metodo == GET && p.value.url == Api + post.location
  {
    match post
    case Resolvida(status, _, location) =>
      if status == 201 then Some(Pedido(GET, Api + location, SemCorpo)) else None
    case Rejeitada => None
  }

  /** criar, both steps: `get` is what the follow-up GET would receive; it is
      consulted only when that GET is issued. */
  function DesfechoDeCriar<B>(post: Resposta<B>, get: Resposta<Item>): (d: Desfecho<Item>)
    ensures d.Sucesso? <==> post.Resolvida? && post.status == 201 && get.Resolvida? && get.status == 200
    ensures d.Sucesso? ==> d.valor == get.corpo
    ensures PedidoDeSeguimento(post).None? ==> d == Falha
  {
    match PedidoDeSeguimento(post)
    case None => Falha
    case Some(_) => DesfechoDeLer(get)
  }

  /** A Location header in the API's own form, `/itens/<id>`, makes the
      follow-up GET read exactly that item. */
  lemma SeguimentoLeOItemCriado<B>(post: Resposta<B>, id: int)
    requires post.Resolvida? && post.status == 201
    requires post.location == "/itens/" + Decimal.Inteiro(id)
    ensures PedidoDeSeguimento(post) == Some(PedidoDe(Ler(id)))
  {
    var n := Decimal.Inteiro(id);
    calc {
      Api + post.location;
      Api + ("/itens" + ("/" + n));
      { assert "/itens/" + n == "/itens" + ("/" + n); }
      (Api + "/itens") + ("/" + n);
      UrlDoItem(id);
    }
  }

  /** The success status each operation tests for on its last response;
      None stands for "any resolved response". */
  function StatusDeSucesso(c: Chamada): Option<int> {
    match c
    case LerTodos => None
    case Ler(_) => Some(200)
    case Atualizar(_) => Some(204)
    case Remover(_) => Some(204)
    case Criar(_) => Some(200)
  }

  predicate Aceita<B>(c: Chamada, r: Resposta<B>) {
    r.Resolvida? && (StatusDeSucesso(c).None? || r.status == StatusDeSucesso(c).value)
  }

  /** Every classifier agrees with the table of success statuses: success
      exactly when the last response resolves with the status its operation
      tests for, and never on a rejection. */
  lemma ClassificacaoSegueTabela(c: Chamada, lista: Resposta<seq<Item>>, um: Resposta<Item>, vazia: Resposta<()>)
    ensures DesfechoDeLerTodos(lista).Sucesso? <==> Aceita(LerTodos, lista)
    ensures c.Ler? ==> (DesfechoDeLer(um).Sucesso? <==> Aceita(c, um))
    ensures c.Atualizar? ==> (DesfechoDeAtualizar(vazia).Sucesso? <==> Aceita(c, vazia))
    ensures c.Remover? ==> (DesfechoDeRemover(vazia).Sucesso? <==> Aceita(c, vazia))
    ensures c.Criar? ==> (DesfechoDeCriar(vazia, um).Sucesso? <==>
                           Aceita(c, um) && vazia.Resolvida? && vazia.status == 201)
  {
  }
}

=== FILE: modelo.dfy ===
/** The one entity of the system. */
module Modelo {

  /** An item as the REST API stores it; `id` is assigned by the server. */
  datatype Item = Item(id: int, nome: string, descricao: string)

  /** The body of a create request: an item without its id. */
  datatype Rascunho = Rascunho(nome: string, descricao: string)
}

=== FILE: resultados.dfy ===
/** Optional values and service outcomes shared by the client and both screens. */
module Resultados {

  /** An optional value: the route id, the loaded item, the call a handler starts. */
  datatype Option<+T> = None | Some(value: T)

  /** What the items client hands to its caller: the `sucesso` continuation with a
      payload, or the `falha` continuation with nothing. */
  datatype Desfecho<+T> = Sucesso(valor: T) | Falha
}

=== FILE: trajetoria.dfy ===
/** Event traces of a screen: a step applied to each event in turn, and the
    invariant a step keeps being kept by the whole trace. */
module Trajetoria {

  /** Applies `passo` to the events of `evs`, first to last. */
  function Executar<S, E>(passo: (S, E) -> S, s: S, evs: seq<E>): S
    decreases |evs|
  {
    if |evs| == 0 then s else Executar(passo, passo(s, evs[0]), evs[1..])
  }

  /** A trace of one event is the step applied once. */
  lemma ExecutarUm<S, E>(passo: (S, E) -> S, s: S, a: E)
    ensures Executar(passo, s, [a]) == passo(s, a)
  {
    assert [a][1..] == [];
  }

  /** A trace of two events is the step applied twice. */
  lemma ExecutarDois<S, E>(passo: (S, E) -> S, s: S, a: E, b: E)
    ensures Executar(passo, s, [a, b]) == passo(passo(s, a), b)
  {
    var m := passo(s, a);
    assert [a, b][1..] == [b];
    assert [b][1..] == [];
    assert Executar(passo, m, [b]) == Executar(passo, passo(m, b), []);
  }

  /** An invariant every step keeps holds after every trace. */
  lemma {:induction false} ExecutarPreserva<S, E>(passo: (S, E) -> S, inv: S -> bool, s: S, evs: seq<E>)
    requires forall x, e :: inv(x) ==> inv(passo(x, e))
    requires inv(s)
    ensures inv(Executar(passo, s, evs))
    decreases |evs|
  {
    if |evs| > 0 {
      ExecutarPreserva(passo, inv, passo(s, evs[0]), evs[1..]);
    }
  }
}
